=== FILE: README.md ===
# Smart-home dashboard: a Dafny model

This project models the logic behind a React smart-home dashboard with
three components:

- **Device cards** (`DeviceCard.tsx`). A device has a type (light, thermostat, lock, security
  system, camera, speaker, TV, fan), a status, and an optional value, unit, room and battery
  level. It is shown as a status line, a switch, a slider and a battery bar.
- **The dashboard** (`Dashboard.tsx`). It holds the device list: six seeded devices. It exposes
  the toggle and value-change reducers and the online/active counters in the header. It also has
  a keyword interpreter for voice commands, which four quick-action buttons use as well.
- **The voice control** (`VoiceControl.tsx`). It is a four-state machine (idle, listening,
  processing, speaking). Timers drive it: a first timer picks one of six canned commands at
  random and shows it, a second hands it to the dashboard, and a third returns to idle.

Modules:

| file | module | models |
|---|---|---|
| `wrappers.dfy` | `Wrappers` | `Option` |
| `text.dfy` | `Text` | ASCII `toLowerCase`, `includes`, the `/(\d+)/` match, `parseInt`, number rendering |
| `devices.dfy` | `Devices` | the device record, `isActive`, the status line, switch, slider and battery rules, the toggle rule |
| `store.dfy` | `Store` | the device list, `handleDeviceToggle`, `handleDeviceValueChange`, the two counters, the seed list |
| `commands.dfy` | `Commands` | `handleVoiceCommand`: classification of a command and the update it makes |
| `voice.dfy` | `Voice` | the voice-control state machine and its display |
| `app.dfy` | `App` | the whole dashboard as one event-driven state machine |

Modelling decisions:

- **Device fields.** The device's `type` is the field `kind`. Optional fields are
  `Option`s.
- **JavaScript truthiness.** The truthiness the code relies on is spelled out:
  - `unit || "C"` treats an empty unit like a missing one.
  - `value || 100` shows a light whose value is 0 or missing at 100%.
  - A missing thermostat value renders as the text `undefined`.
- **Voice commands are one if/else-if chain.** The first branch that matches is the only one
  that runs, even for a command that matches several. So "turn off the light and lock" turns
  the lights off and leaves the locks alone (`Commands.FirstMatchWins`).
- **Matching is by substring.** "lock" also matches "unlock", so the only lock command locks
  (`Commands.UnlockCommandLocks`). A temperature command with no number changes nothing.
- **Timers.** Each `setTimeout` becomes a pending timer. Any pending timer may fire next, which
  covers every interleaving the real delays allow. `clearTimeout` is never called: cancelling
  while listening leaves the recognition timer pending, and the session still advances
  (`Voice.CancelledSessionStillAdvances`).
- **Randomness.** `Math.random` becomes the `pick` parameter of a timer event.
- **Speech support.** Browser detection of speech support becomes the `supported` parameter of
  a button press.
- **Disabled controls.** A missing or disabled control ignores its events: the voice button
  while processing, a thermostat's missing switch, a card's switch or slider when the device is
  offline, the slider of a light that is off, and the missing slider of any other card.

## Model

| member | source | states |
|---|---|---|
| Text.ToLower | src/components/Dashboard.tsx:112 | lower-casing keeps the length, maps each character through ASCII lower-casing, and leaves no capital |
| Text.ToLowerNoUpper | src/components/Dashboard.tsx:112 | a string without capitals is its own lower-case form |
| Text.ToLowerIdempotent | src/components/Dashboard.tsx:112 | lower-casing twice is lower-casing once |
| Text.ToLowerKeepsDigits | src/components/Dashboard.tsx:112-137 | lower-casing neither creates, removes nor changes a digit, so the number in a command survives it |
| Text.ToLowerAppend | src/components/Dashboard.tsx:112 | lower-casing distributes over concatenation |
| Text.ContainsFrom | src/components/Dashboard.tsx:114 | the search from a position is true exactly when the word occurs at or after that position |
| Text.Contains | src/components/Dashboard.tsx:114-146 | `includes` is true exactly when the word occurs somewhere in the string |
| Text.OccursInPrefix | src/components/Dashboard.tsx:114-146 | a word found in a string is still found after text is appended |
| Text.OccursInSuffix | src/components/Dashboard.tsx:114-146 | a word found in a string is still found after text is prepended |
| Text.AbsentCharNotOccurs | src/components/Dashboard.tsx:114-146 | a word that has a character the string lacks is not included in it |
| Text.AbsentAtOffsetNotOccurs | src/components/Dashboard.tsx:114-146 | a word is not included when its k-th character is missing from every place it could land |
| Text.OccursAroundDigits | src/components/Dashboard.tsx:114-146 | a digit-free keyword found in text with a number spliced in is found in the text before or after the number |
| Text.NatToString | src/components/DeviceCard.tsx:90-93 | a rendered number is a non-empty string of digits with no superfluous leading zero |
| Text.ParseNatToString | src/components/Dashboard.tsx:139 | `parseInt` of a rendered number gives the number back |
| Text.ParseNatPositive | src/components/Dashboard.tsx:139 | digits with a non-zero lead parse to at least 1, and to at least 10 when there are two or more |
| Text.NatToStringParseNat | src/components/Dashboard.tsx:139 | rendering the parse of a canonical digit string gives the string back |
| Text.RunEnd | src/components/Dashboard.tsx:137 | the digit run starting at a position ends at the first non-digit or at the end |
| Text.DigitSearch | src/components/Dashboard.tsx:137 | scanning from a digit-free prefix finds no match exactly when there is no digit, and otherwise finds the first maximal digit run |
| Text.MatchDigits | src/components/Dashboard.tsx:137-138 | `/(\d+)/` fails exactly on digit-free text, and otherwise matches the leftmost maximal run of digits |
| Text.FirstDigitRunUnique | src/components/Dashboard.tsx:137 | the leftmost maximal digit run is unique |
| Text.FirstNumber | src/components/Dashboard.tsx:137-139 | no number exactly when the text has no digit; otherwise `parseInt` of the first digit run |
| Text.FirstNumberOfRendered | src/components/Dashboard.tsx:137-139 | a number written after digit-free text and before a non-digit is the number read back |
| Text.ParseNat | src/components/Dashboard.tsx:139 | `parseInt` of a run of k digits is a natural number below 10^k |
| Text.IntToString | src/components/DeviceCard.tsx:90-93 | an integer renders with a leading minus sign exactly when it is negative, followed by digits only |
| Devices.ActiveIffActiveStatus | src/components/DeviceCard.tsx:82-85 | a device with a legal status is active exactly when it has its type's one active status, and each type also has an inactive legal status |
| Devices.IsActive | src/components/DeviceCard.tsx:82-85 | a status is active exactly when it is the active status of some device type (on, locked or armed) |
| Devices.ToggleStatus | src/components/Dashboard.tsx:78-87 | the toggled status is legal for the type and differs from the old one; a lock unlocks exactly from locked, a security system disarms exactly from armed, any other type goes off exactly from on (so an illegal status goes to on, to locked or to armed); a legal status flips whether the card is active |
| Devices.ToggleStatusInvolution | src/components/Dashboard.tsx:78-87 | toggling a legal status twice gives it back |
| Devices.ToggleStatusIllegalNotInvolution | src/components/Dashboard.tsx:85-86 | a light stored as "locked" toggles to "on" and then "off", so toggling twice does not undo a status that is illegal for the type |
| Devices.UnitText | src/components/DeviceCard.tsx:90 | the unit shown is the device's unit when it is non-empty and "C" otherwise |
| Devices.ValueText | src/components/DeviceCard.tsx:90 | a missing value renders exactly as "undefined", and a present one starts with a minus sign exactly when it is negative |
| Devices.ShownBrightness | src/components/DeviceCard.tsx:93 | the brightness shown is the value when it is non-zero and 100 when it is 0 or missing |
| Devices.StatusText | src/components/DeviceCard.tsx:87-102 | the status line for each device type: thermostat reading and unit; brightness or "Off" for a light; "Locked"/"Unlocked", "Armed"/"Disarmed", "On"/"Off" exactly as the status says |
| Devices.StatusTextShowsActivity | src/components/DeviceCard.tsx:82-102 | for a legal non-thermostat, the status line shows the active label exactly when the card is active (a light reads "Off" exactly when it is inactive) |
| Devices.DarkLightShowsFullBrightness | src/components/DeviceCard.tsx:91-94 | a light that is on with value 0 or no value reads "100% brightness" |
| Devices.ThermostatTextReadsBack | src/components/DeviceCard.tsx:89-90 | the first number in a thermostat's status line is its value |
| Devices.SwitchOf | src/components/DeviceCard.tsx:159-165 | every device but a thermostat has a switch; it is checked exactly when the device is active and disabled exactly when it is offline |
| Devices.SliderOf | src/components/DeviceCard.tsx:169-183 | only a light or thermostat with a value has a slider, at that value; 10–30 in steps of 1 for a thermostat, 0–100 in steps of 5 for a light; disabled when offline or for a light that is off |
| Devices.BatteryOf | src/components/DeviceCard.tsx:192-206 | the battery bar appears exactly when there is a battery level, shows it, and is healthy exactly above 20 |
| Store.FramedKeepsBattery | src/components/DeviceCard.tsx:192-206 | no toggle, value change or voice command changes any card's battery bar |
| Devices.SliderChange | src/components/DeviceCard.tsx:104-106 | a slider change reports the device's id with the first slider value, or no value when the array is empty |
| Store.MapDevices | src/components/Dashboard.tsx:74 | `map` keeps length and order and applies the function to each device |
| Store.FramedWellFormed | src/components/Dashboard.tsx:72-102 | an update that changes only statuses and values and leaves every status legal keeps ids unique and statuses legal |
| Store.Toggle | src/components/Dashboard.tsx:72-94 | every device with the id gets its type's toggled status and keeps its value; every other device is unchanged; an unknown id changes nothing |
| Store.ToggleWellFormed | src/components/Dashboard.tsx:72-94 | toggling keeps ids unique and statuses legal |
| Store.ToggleTwice | src/components/Dashboard.tsx:72-94 | toggling the same device twice restores a list of legal statuses |
| Store.ToggleCommutes | src/components/Dashboard.tsx:72-94 | toggles of two devices commute |
| Store.SetValue | src/components/Dashboard.tsx:96-102 | every device with the id gets the new value and keeps its status; every other device is unchanged; an unknown id changes nothing |
| Store.SetValueWellFormed | src/components/Dashboard.tsx:96-102 | setting a value keeps ids unique and statuses legal |
| Store.SetValueLastWins | src/components/Dashboard.tsx:96-102 | of two value changes to one device the last wins, and re-setting the current value changes nothing |
| Store.SetValueToggleCommute | src/components/Dashboard.tsx:72-102 | a value change and a toggle commute |
| Store.CountWhere | src/components/Dashboard.tsx:162-165 | a filter's length is at most the list's; it equals the list's exactly when every device passes, and is 0 exactly when none does |
| Store.CountWhereAppend | src/components/Dashboard.tsx:162-165 | filter counts add up over concatenation |
| Store.CountWhereAgree | src/components/Dashboard.tsx:162-165 | lists that agree pointwise on the filter have the same count |
| Store.OnlineCount | src/components/Dashboard.tsx:162 | the online count is the number of online devices: all of them exactly when every device is online, none exactly when none is |
| Store.ActiveCount | src/components/Dashboard.tsx:163-165 | the active count counts "on", "locked" and "armed": all exactly when every device has one of these, none exactly when none has |
| Store.FramedOnlineCount | src/components/Dashboard.tsx:72-102 | toggles, value changes and voice commands never change the online count |
| Store.ToggleActiveCount | src/components/Dashboard.tsx:72-94 | toggling one device of a well-formed list moves the active count by exactly one, down if it was active and up otherwise |
| Store.Seed | src/components/Dashboard.tsx:14-68 | the seed list has six devices with unique ids and legal statuses |
| Store.SeedCounts | src/components/Dashboard.tsx:14-68 | the seed list shows 5 online and 4 active |
| Commands.Classify | src/components/Dashboard.tsx:108-155 | the branch a command takes: lights off iff it has "turn off" and "light"; otherwise lights on iff "turn on" and "light"; otherwise temperature iff "thermostat" or "temperature", with the first number of the lower-cased command; otherwise lock iff "lock"; otherwise nothing |
| Commands.Apply | src/components/Dashboard.tsx:114-154 | each branch's update: every light off, every light on, every thermostat to the number, every lock locked; a temperature command without a number or an unmatched command changes nothing |
| Commands.Interpret | src/components/Dashboard.tsx:108-155 | a voice command changes only the statuses and values of lights, thermostats and locks, sets no status other than on, off or locked, never unlocks a lock, and keeps the list well formed |
| Commands.ClassifyIgnoresCase | src/components/Dashboard.tsx:112 | commands with the same lower-case form are interpreted alike |
| Commands.LowerRendered | src/components/Dashboard.tsx:112 | lower-casing leaves a rendered number and capital-free text around it unchanged |
| Commands.TemperatureCommand | src/components/Dashboard.tsx:133-145 | a capital-free command with a temperature keyword before or after its number, and no on/off phrase, sets every thermostat to that number |
| Commands.SetThermostatKeywords | src/components/Dashboard.tsx:114-136 | the text around the number in "set thermostat to N degrees" has a temperature keyword and no on/off phrase |
| Commands.SetThermostatCommand | src/components/Dashboard.tsx:133-145 | "set thermostat to N degrees" sets every thermostat to N, for every N |
| Commands.ComfortModeAction | src/components/Dashboard.tsx:259-264 | the "Set Comfort Mode" button sets every thermostat to 20 |
| Commands.LightsOffKeywords | src/components/Dashboard.tsx:114 | "turn off all lights" has "turn off" and "light" |
| Commands.LightsOffAction | src/components/Dashboard.tsx:253-258 | the "Turn Off All Lights" button turns every light off |
| Commands.LockDoorsKeywords | src/components/Dashboard.tsx:114-146 | "lock all doors" reaches the lock branch |
| Commands.LockDoorsAction | src/components/Dashboard.tsx:265-270 | the "Lock All Doors" button locks every lock |
| Commands.GoodNightKeywords | src/components/Dashboard.tsx:114-146 | "good night" has none of the keywords "turn off", "turn on", "light", "thermostat", "temperature" and "lock" |
| Commands.GoodNightAction | src/components/Dashboard.tsx:271-276 | the "Good Night Mode" button matches no branch and changes nothing |
| Commands.NonsenseCommand | src/components/Dashboard.tsx:114-154 | a command whose lower-cased form has none of "light", "thermostat", "temperature" and "lock" matches no branch and changes nothing |
| Commands.XyzzyCommand | src/components/Dashboard.tsx:114-154 | "xyzzy" matches no branch and changes nothing |
| Commands.LightAndLockKeywords | src/components/Dashboard.tsx:114-146 | "turn off the light and lock" has "turn off", "light" and "lock" |
| Commands.FirstMatchWins | src/components/Dashboard.tsx:114-154 | every command whose lower-cased form has "turn off" and "light" turns the lights off and leaves every lock as it was, whatever else it contains |
| Commands.LightAndLockCommand | src/components/Dashboard.tsx:114-154 | "turn off the light and lock" contains "lock" yet only turns the lights off |
| Commands.UnlockKeywords | src/components/Dashboard.tsx:114-146 | "unlock the front door" has "lock" and none of the phrases that select an earlier branch |
| Commands.UnlockCommandLocks | src/components/Dashboard.tsx:146-153 | "unlock the front door" locks every lock, because matching is by substring |
| Commands.RaiseTemperatureKeywords | src/components/Dashboard.tsx:114-136 | "raise the temperature" has "temperature", no on/off phrase and no digit |
| Commands.TemperatureWithoutNumber | src/components/Dashboard.tsx:133-145 | every command that reaches the temperature branch but holds no digit finds no number and changes nothing |
| Commands.RaiseTemperatureCommand | src/components/Dashboard.tsx:133-145 | "raise the temperature" reaches the temperature branch and changes nothing |
| Commands.InterpretIdempotent | src/components/Dashboard.tsx:108-155 | interpreting a command twice has the effect of interpreting it once |
| Voice.ToggleListening | src/components/VoiceControl.tsx:20-60 | without speech support only an alert; while listening, back to idle; otherwise listening, with the recognition timer scheduled and the last command kept |
| Voice.ButtonDisabled | src/components/VoiceControl.tsx:99 | the voice button is disabled exactly while the caption reads "Processing..." |
| Voice.RemoveAt | src/components/VoiceControl.tsx:36-59 | exactly the fired timer leaves the pending timers: one fewer, and the multiset loses one copy of the timer at that position |
| Voice.FireTimer | src/components/VoiceControl.tsx:36-59 | recognition picks a canned command, shows it and goes to processing, scheduling execution; execution hands the command over and goes to speaking, scheduling the finish; the finish returns to idle |
| Voice.Step | src/components/VoiceControl.tsx:20-60 | a press while processing is ignored; without support a press changes nothing; a press toggles listening; a command is handed over only when its execution timer fires |
| Voice.InitialInv | src/components/VoiceControl.tsx:14-15 | the idle start state, with an empty last command and nothing scheduled, satisfies the invariant that the last command and every scheduled command are canned |
| Voice.StepKeepsInv | src/components/VoiceControl.tsx:36-59 | the last command and every command handed over is one of the six canned commands |
| Voice.FullSession | src/components/VoiceControl.tsx:20-60 | press, recognition, execution and finish go idle → listening → processing → speaking → idle, hand over the picked command exactly once (the press, recognition and finish steps are silent), and show it until idle |
| Voice.CancelledSessionStillAdvances | src/components/VoiceControl.tsx:28-49 | pressing again while listening returns to idle, but the recognition timer still fires and moves to processing |
| Voice.StateText | src/components/VoiceControl.tsx:62-73 | the status text is one of the four captions, and "Tap to speak" exactly when idle |
| Voice.StateTextInjective | src/components/VoiceControl.tsx:62-73 | the four states have four different captions |
| Voice.StateIcon | src/components/VoiceControl.tsx:75-79 | the speaker icon exactly when speaking, the crossed-out microphone exactly when processing, the microphone otherwise |
| Voice.IconShowsDisabled | src/components/VoiceControl.tsx:75-79 | the crossed-out microphone shows exactly while the button is disabled |
| Voice.RecognizedCommandShown | src/components/VoiceControl.tsx:46-49 | right after recognition fires, the picked command is the last command and it is shown |
| Voice.ShowLastCommand | src/components/VoiceControl.tsx:131 | the last command is shown exactly when it is non-empty and the caption is not "Tap to speak" |
| Voice.ShownCommandIsCanned | src/components/VoiceControl.tsx:131-135 | the command on display (non-empty, while not idle) is always one of the six canned commands |
| App.Step | src/components/Dashboard.tsx:220-243 | a press of a missing or disabled switch, a move of a missing or disabled slider, and an event for a card that does not exist change nothing; device events leave the voice control alone |
| App.InitialInv | src/components/Dashboard.tsx:14-68 | the dashboard starts well formed |
| App.StepKeepsInv | src/components/Dashboard.tsx:72-155 | every event keeps device ids unique, statuses legal, and every voice command canned |
| App.SwitchPressFlips | src/components/DeviceCard.tsx:159-165 | pressing an enabled switch flips it, changes no other card, and moves the active count by one |
| App.SliderMoveSetsValue | src/components/DeviceCard.tsx:169-183 | moving an enabled slider sets that card's value and changes no other card |
| App.TurnOffTheLightsIntent | src/components/VoiceControl.tsx:38 | "Turn off the lights" turns every light off |
| App.SetThermostatIntent | src/components/VoiceControl.tsx:39 | "Set thermostat to 22 degrees" sets every thermostat to 22 |
| App.LockTheFrontDoorIntent | src/components/VoiceControl.tsx:40 | "Lock the front door" locks every lock |
| App.TurnOnIntent | src/components/VoiceControl.tsx:41 | "Turn on living room lights" turns every light on, in every room |
| App.BedroomTemperatureIntent | src/components/VoiceControl.tsx:42 | "Set bedroom temperature to 20 degrees" sets every thermostat to 20, in every room |
| App.SecurityCamerasIntent | src/components/VoiceControl.tsx:43 | "Show security cameras" matches no branch |
| App.MockCommandIntent | src/components/VoiceControl.tsx:37-47 | the intent each canned command maps to |
| App.QuickActionEffect | src/components/Dashboard.tsx:253-276 | each quick-action button makes the update of its intent |
| App.VoiceEventEffect | src/components/VoiceControl.tsx:51-53 | a voice-control event leaves the devices alone or applies one of the canned commands' updates |

## Left out

- Dark mode: the dark-mode toggle only flips a CSS class.
- Logging and stubs: `console.log`, the settings button and the "Add Device" button have no
  effect on state.
- Rendering: the JSX layout, CSS classes, colours, icons per device type, pulse animations and
  the "Try saying" hints are presentation only.
- `tailwind.config.ts` is configuration and is not part of this model.
- Browser and timing: speech-support detection, real delays and `Math.random` become
  parameters, as described above. The model does not fix the order in which timers fire.
- The alert text: an unsupported press is modelled as an `Alert` effect, without its wording.
- Text.ToLower: lower-cases only the ASCII capitals, because JavaScript's full Unicode case
  mapping is out of scope.
- Text.FirstNumber: reads digits as an unbounded natural number, so it does not model
  `parseInt` losing precision on numbers beyond 2^53.
- Text.NatToString: renders every number in plain decimal. JavaScript's template literals
  render values of 1e21 and above in exponent form ("1e+21"), which this model does not.
- Devices.ThermostatTextReadsBack: covers every non-negative value. In the source the read-back
  fails from 1e21 upwards, where the status line uses exponent form.
- Numbers in general: device values and battery levels are integers. Fractional values, which
  the code never produces, are not modelled.

=== FILE: app.dfy ===
/** The dashboard as a whole: its device list and its voice control, with
    the events a user or a timer can cause. Cards call the reducers only
    through enabled controls, the voice control hands its commands to the
    interpreter, and the quick-action buttons feed fixed command strings to
    the same interpreter. */
module App {
  import opened Wrappers
  import opened Text
  import opened Devices
  import opened Store
  import opened Commands
  import Voice

  datatype Dashboard = Dashboard(devices: seq<Device>, voice: Voice.Voice)

  /** An event: one for the voice control, a press of the switch on the
      card at position `card`, a movement of that card's slider, or a press
      of the quick-action button at position `action`. */
  datatype Event =
    | VoiceEvent(e: Voice.Event)
    | SwitchPressed(card: nat)
    | SliderMoved(card: nat, values: seq<int>)
    | QuickAction(action: nat)

  /** The command strings behind the "Turn Off All Lights", "Set Comfort
      Mode", "Lock All Doors" and "Good Night Mode" buttons. */
  const QuickCommands: seq<string> := [
    "turn off all lights",
    "set thermostat to 20 degrees",
    "lock all doors",
    "good night"
  ]

  const Initial: Dashboard := Dashboard(Seed(), Voice.Initial)

  predicate ValidEvent(ev: Event) {
    ev.VoiceEvent? ==> Voice.ValidEvent(ev.e)
  }

  /** The card's switch exists and is enabled. */
  predicate SwitchEnabled(d: Device) {
    SwitchOf(d).Some? && !SwitchOf(d).value.disabled
  }

  /** The card's slider exists and is enabled. */
  predicate SliderEnabled(d: Device) {
    SliderOf(d).Some? && !SliderOf(d).value.disabled
  }

  /** One event. A control that does not exist or is disabled does
      nothing; otherwise its callback runs. */
  function Step(a: Dashboard, ev: Event): (r: Dashboard)
    requires ValidEvent(ev)
    ensures !ev.VoiceEvent? ==> r.voice == a.voice
    ensures ev.SwitchPressed? && ev.card < |a.devices| && !SwitchEnabled(a.devices[ev.card]) ==> r == a
    ensures ev.SliderMoved? && ev.card < |a.devices| && !SliderEnabled(a.devices[ev.card]) ==> r == a
    ensures (ev.SwitchPressed? || ev.SliderMoved?) && ev.card >= |a.devices| ==> r == a
  {
    var ds := a.devices;
    match ev
    case VoiceEvent(e) =>
      var rx := Voice.Step(a.voice, e);
      var ds' := if rx.effect.Command? then Interpret(ds, rx.effect.text) else ds;
      Dashboard(ds', rx.next)
    case SwitchPressed(k) =>
      if k < |ds| && SwitchEnabled(ds[k]) then a.(devices := Toggle(ds, ds[k].id)) else a
    case SliderMoved(k, values) =>
      if k < |ds| && SliderEnabled(ds[k]) then
        var change := SliderChange(ds[k], values);
        a.(devices := SetValue(ds, change.id, change.value))
      else a
    case QuickAction(i) =>
      if i < |QuickCommands| then a.(devices := Interpret(ds, QuickCommands[i])) else a
  }

  /** The invariant of the running dashboard. */
  ghost predicate Inv(a: Dashboard) {
    WellFormed(a.devices) && Voice.Inv(a.voice)
  }

  lemma InitialInv()
    ensures Inv(Initial)
  {
    Voice.InitialInv();
  }

  /** Every event keeps device ids unique, every status legal for its
      type, and the voice control's recorded and pending commands canned. */
  lemma StepKeepsInv(a: Dashboard, ev: Event)
    requires ValidEvent(ev) && Inv(a)
    ensures Inv(Step(a, ev))
  {
    match ev
    case VoiceEvent(e) => Voice.StepKeepsInv(a.voice, e);
    case SwitchPressed(k) =>
      if k < |a.devices| {
        ToggleWellFormed(a.devices, a.devices[k].id);
      }
    case SliderMoved(k, values) =>
      if k < |a.devices| && SliderEnabled(a.devices[k]) {
        var change := SliderChange(a.devices[k], values);
        SetValueWellFormed(a.devices, change.id, change.value);
      }
    case QuickAction(i) =>
  }

  /** Pressing an enabled switch changes that card's device only, flips the
      switch, and moves the header's active count by one. */
  lemma SwitchPressFlips(a: Dashboard, k: nat)
    requires Inv(a) && k < |a.devices| && SwitchEnabled(a.devices[k])
    ensures
      var r := Step(a, SwitchPressed(k));
      && SwitchOf(r.devices[k]).value.checked == !SwitchOf(a.devices[k]).value.checked
      && (forall j :: 0 <= j < |a.devices| && j != k ==> r.devices[j] == a.devices[j])
      && ActiveCount(r.devices) == ActiveCount(a.devices) + (if IsActive(a.devices[k].status) then -1 else 1)
  {
    ToggleActiveCount(a.devices, k);
  }

  /** Moving an enabled slider sets that card's device's value to the first
      slider value, unclamped, and changes nothing else. */
  lemma SliderMoveSetsValue(a: Dashboard, k: nat, values: seq<int>)
    requires Inv(a) && k < |a.devices| && SliderEnabled(a.devices[k]) && |values| > 0
    ensures
      var r := Step(a, SliderMoved(k, values));
      && r.devices[k] == a.devices[k].(value := Some(values[0]))
      && (forall j :: 0 <= j < |a.devices| && j != k ==> r.devices[j] == a.devices[j])
  {
  }

  // ---------------------------------------------------------------------
  // What the canned voice commands do

  /** The intent of each canned command, in the order of the list. */
  const MockIntents: seq<Intent> := [
    LightsOff,
    SetTemperature(Some(22)),
    LockAll,
    LightsOn,
    SetTemperature(Some(20)),
    Unrecognized
  ]

  lemma TurnOffTheLightsKeywords(c: string)
    requires c == "turn off the lights"
    ensures Occurs(c, "turn off") && Occurs(c, "light")
  {
    assert OccursAt(c, "turn off", 0);
    assert OccursAt(c, "light", 13);
  }

  /* As in `Commands`, the characters a fixed command lacks are stated in a
     separate `...Chars` lemma before the occurrence reasoning uses them. */
  lemma LockTheFrontDoorChars(c: string)
    requires c == "lock the front door"
    ensures 'u' !in c && 'm' !in c
  {
  }

  lemma LockTheFrontDoorKeywords(c: string)
    requires c == "lock the front door"
    ensures !Occurs(c, "turn off") && !Occurs(c, "turn on")
    ensures !Occurs(c, "thermostat") && !Occurs(c, "temperature") && Occurs(c, "lock")
  {
    LockTheFrontDoorChars(c);
    assert !Occurs(c, "turn off") by { AbsentCharNotOccurs(c, "turn off", 'u'); }
    assert !Occurs(c, "turn on") by { AbsentCharNotOccurs(c, "turn on", 'u'); }
    assert !Occurs(c, "thermostat") by { AbsentCharNotOccurs(c, "thermostat", 'm'); }
    assert !Occurs(c, "temperature") by { AbsentCharNotOccurs(c, "temperature", 'm'); }
    assert OccursAt(c, "lock", 0);
  }

  lemma TurnOnKeywords(c: string)
    requires c == "turn on living room lights"
    ensures !Occurs(c, "turn off") && Occurs(c, "turn on") && Occurs(c, "light")
  {
    assert !Occurs(c, "turn off") by { AbsentCharNotOccurs(c, "turn off", 'f'); }
    assert OccursAt(c, "turn on", 0);
    assert OccursAt(c, "light", 20);
  }

  lemma BedroomPrefixPlain(a: string)
    requires a == "set bedroom temperature to "
    ensures NoUpper(a) && NoDigits(a)
  {
    var a1, a2 := "set bedroom ", "temperature to ";
    assert NoUpper(a1) && NoDigits(a1);
    assert NoUpper(a2) && NoDigits(a2);
    assert a == a1 + a2;
  }

  lemma BedroomPrefixChars(a: string)
    requires a == "set bedroom temperature to "
    ensures 'n' !in a
  {
  }

  lemma BedroomPrefixKeywords(a: string)
    requires a == "set bedroom temperature to "
    ensures !Occurs(a, "turn off") && !Occurs(a, "turn on") && Occurs(a, "temperature")
  {
    BedroomPrefixChars(a);
    assert !Occurs(a, "turn off") by { AbsentCharNotOccurs(a, "turn off", 'n'); }
    assert !Occurs(a, "turn on") by { AbsentCharNotOccurs(a, "turn on", 'n'); }
    assert OccursAt(a, "temperature", 12);
  }

  lemma DegreesSuffix(b: string)
    requires b == " degrees"
    ensures NoUpper(b) && !IsDigit(b[0]) && !Occurs(b, "turn off") && !Occurs(b, "turn on")
  {
    assert !Occurs(b, "turn off") by { AbsentCharNotOccurs(b, "turn off", 't'); }
    assert !Occurs(b, "turn on") by { AbsentCharNotOccurs(b, "turn on", 't'); }
  }

  lemma SecurityCamerasChars(c: string)
    requires c == "show security cameras"
    ensures 'n' !in c && 'p' !in c && 'l' !in c && 'm' !in c[4..16]
  {
  }

  lemma SecurityCamerasKeywords(c: string)
    requires c == "show security cameras"
    ensures !Occurs(c, "turn off") && !Occurs(c, "turn on")
    ensures !Occurs(c, "thermostat") && !Occurs(c, "temperature") && !Occurs(c, "lock")
  {
    SecurityCamerasChars(c);
    assert !Occurs(c, "turn off") by { AbsentCharNotOccurs(c, "turn off", 'n'); }
    assert !Occurs(c, "turn on") by { AbsentCharNotOccurs(c, "turn on", 'n'); }
    assert !Occurs(c, "thermostat") by { AbsentAtOffsetNotOccurs(c, "thermostat", 4); }
    assert !Occurs(c, "temperature") by { AbsentCharNotOccurs(c, "temperature", 'p'); }
    assert !Occurs(c, "lock") by { AbsentCharNotOccurs(c, "lock", 'l'); }
  }

  lemma LowerSetThermostat(command: string)
    requires command == "Set thermostat to 22 degrees"
    ensures ToLower(command) == "set thermostat to 22 degrees"
  {
  }

  lemma LowerBedroomTemperature(command: string)
    requires command == "Set bedroom temperature to 20 degrees"
    ensures ToLower(command) == "set bedroom temperature to 20 degrees"
  {
  }

  /** A two-digit number written between two strings. */
  lemma Rendered(a: string, n: nat, b: string, c: string)
    requires 10 <= n < 100
    requires c == a + [DigitChar(n / 10), DigitChar(n % 10)] + b
    ensures c == a + NatToString(n) + b
  {
  }

  lemma TurnOffTheLightsIntent(command: string)
    requires command == "Turn off the lights"
    ensures Classify(command) == LightsOff
  {
    var c := ToLower(command);
    assert c == "turn off the lights";
    TurnOffTheLightsKeywords(c);
  }

  lemma SetThermostatIntent(command: string)
    requires command == "Set thermostat to 22 degrees"
    ensures Classify(command) == SetTemperature(Some(22))
  {
    var c := ToLower(command);
    LowerSetThermostat(command);
    Rendered("set thermostat to ", 22, " degrees", c);
    SetThermostatCommand(22);
    ToLowerIdempotent(command);
    ClassifyIgnoresCase(command, c);
  }

  lemma LockTheFrontDoorIntent(command: string)
    requires command == "Lock the front door"
    ensures Classify(command) == LockAll
  {
    var c := ToLower(command);
    assert c == "lock the front door";
    LockTheFrontDoorKeywords(c);
  }

  lemma TurnOnIntent(command: string)
    requires command == "Turn on living room lights"
    ensures Classify(command) == LightsOn
  {
    var c := ToLower(command);
    assert c == "turn on living room lights";
    TurnOnKeywords(c);
  }

  lemma BedroomTemperatureIntent(command: string)
    requires command == "Set bedroom temperature to 20 degrees"
    ensures Classify(command) == SetTemperature(Some(20))
  {
    var c := ToLower(command);
    var a, b := "set bedroom temperature to ", " degrees";
    LowerBedroomTemperature(command);
    Rendered(a, 20, b, c);
    BedroomPrefixPlain(a);
    BedroomPrefixKeywords(a);
    DegreesSuffix(b);
    TemperatureCommand(a, 20, b);
    ToLowerIdempotent(command);
    ClassifyIgnoresCase(command, c);
  }

  lemma SecurityCamerasIntent(command: string)
    requires command == "Show security cameras"
    ensures Classify(command) == Unrecognized
  {
    var c := ToLower(command);
    assert c == "show security cameras";
    SecurityCamerasKeywords(c);
  }

  /** The intent of the canned command at position `i`. */
  lemma MockCommandIntent(i: nat)
    requires i < |Voice.MockCommands|
    ensures Classify(Voice.MockCommands[i]) == MockIntents[i]
  {
    var command := Voice.MockCommands[i];
    if i == 0 {
      TurnOffTheLightsIntent(command);
    } else if i == 1 {
      SetThermostatIntent(command);
    } else if i == 2 {
      LockTheFrontDoorIntent(command);
    } else if i == 3 {
      TurnOnIntent(command);
    } else if i == 4 {
      BedroomTemperatureIntent(command);
    } else {
      SecurityCamerasIntent(command);
    }
  }

  /** The intents behind the four quick-action buttons. */
  const QuickIntents: seq<Intent> := [LightsOff, SetTemperature(Some(20)), LockAll, Unrecognized]

  /** Each quick-action button makes the update of its intent, and a press
      of a position with no button changes nothing. */
  lemma QuickActionEffect(a: Dashboard, i: nat)
    ensures i < |QuickCommands| ==> Step(a, QuickAction(i)).devices == Apply(QuickIntents[i], a.devices)
    ensures i >= |QuickCommands| ==> Step(a, QuickAction(i)) == a
  {
    if i < |QuickCommands| {
      var command := QuickCommands[i];
      if i == 0 {
        LightsOffAction(command);
      } else if i == 1 {
        ComfortModeAction(command);
      } else if i == 2 {
        LockDoorsAction(command);
      } else {
        GoodNightAction(command, a.devices);
      }
    }
  }

  /** Whatever the voice control does, the device list changes, if at all,
      by one of the canned intents: lights off, thermostats to 22, locks
      locked, lights on, or thermostats to 20. */
  lemma VoiceEventEffect(a: Dashboard, e: Voice.Event)
    requires Voice.ValidEvent(e) && Voice.Inv(a.voice)
    ensures
      var r := Step(a, VoiceEvent(e));
      r.devices == a.devices ||
      exists i :: 0 <= i < |MockIntents| && r.devices == Apply(MockIntents[i], a.devices)
  {
    var rx := Voice.Step(a.voice, e);
    Voice.StepKeepsInv(a.voice, e);
    if rx.effect.Command? {
      var i :| 0 <= i < |Voice.MockCommands| && Voice.MockCommands[i] == rx.effect.text;
      MockCommandIntent(i);
    }
  }
}

=== FILE: commands.dfy ===
/** The dashboard's voice-command handler: the command is lower-cased and
    run through an if / else-if chain of keyword tests, so at most one intent
    fires, and that intent is applied to the device list. */
module Commands {
  import opened Wrappers
  import opened Text
  import opened Devices
  import opened Store

  /** What a command is recognised as. `SetTemperature` carries the number
      the command holds, if it holds one. */
  datatype Intent =
    | LightsOff
    | LightsOn
    | SetTemperature(degrees: Option<nat>)
    | LockAll
    | Unrecognized

  /** The branch of `handleVoiceCommand` a command takes: the first of
      "turn off" and "light", "turn on" and "light", "thermostat" or
      "temperature", and "lock" that the lower-cased command contains. */
  function Classify(command: string): (r: Intent)
    ensures
      var c := ToLower(command);
      var off := Occurs(c, "turn off") && Occurs(c, "light");
      var on := Occurs(c, "turn on") && Occurs(c, "light");
      var temp := Occurs(c, "thermostat") || Occurs(c, "temperature");
      var lock := Occurs(c, "lock");
      && (r == LightsOff <==> off)
      && (r == LightsOn <==> !off && on)
      && (r.SetTemperature? <==> !off && !on && temp)
      && (r == LockAll <==> !off && !on && !temp && lock)
      && (r == Unrecognized <==> !off && !on && !temp && !lock)
      && (r.SetTemperature? ==> r.degrees == FirstNumber(c))
  {
    var c := ToLower(command);
    if Contains(c, "turn off") && Contains(c, "light") then LightsOff
    else if Contains(c, "turn on") && Contains(c, "light") then LightsOn
    else if Contains(c, "thermostat") || Contains(c, "temperature") then SetTemperature(FirstNumber(c))
    else if Contains(c, "lock") then LockAll
    else Unrecognized
  }

  /** Every device of type `k` gets status `s`. */
  function SetStatusOfKind(ds: seq<Device>, k: DeviceType, s: Status): seq<Device> {
    MapDevices(ds, (d: Device) => if d.kind == k then d.(status := s) else d)
  }

  /** Every device of type `k` gets value `v`. */
  function SetValueOfKind(ds: seq<Device>, k: DeviceType, v: int): seq<Device> {
    MapDevices(ds, (d: Device) => if d.kind == k then d.(value := Some(v)) else d)
  }

  /** The update an intent makes: every light off, every light on, every
      thermostat set to the number (nothing when there is no number), every
      lock locked, or nothing. */
  function Apply(intent: Intent, ds: seq<Device>): (r: seq<Device>)
    ensures Framed(ds, r)
    ensures intent == LightsOff ==> forall i :: 0 <= i < |ds| ==>
      r[i] == if ds[i].kind == Light then ds[i].(status := Off) else ds[i]
    ensures intent == LightsOn ==> forall i :: 0 <= i < |ds| ==>
      r[i] == if ds[i].kind == Light then ds[i].(status := On) else ds[i]
    ensures intent.SetTemperature? && intent.degrees.Some? ==> forall i :: 0 <= i < |ds| ==>
      r[i] == if ds[i].kind == Thermostat then ds[i].(value := Some(intent.degrees.value)) else ds[i]
    ensures intent == LockAll ==> forall i :: 0 <= i < |ds| ==>
      r[i] == if ds[i].kind == Lock then ds[i].(status := Locked) else ds[i]
    ensures intent == Unrecognized || intent == SetTemperature(None) ==> r == ds
  {
    match intent
    case LightsOff => SetStatusOfKind(ds, Light, Off)
    case LightsOn => SetStatusOfKind(ds, Light, On)
    case SetTemperature(None) => ds
    case SetTemperature(Some(t)) => SetValueOfKind(ds, Thermostat, t)
    case LockAll => SetStatusOfKind(ds, Lock, Locked)
    case Unrecognized => ds
  }

  /** `handleVoiceCommand(command)` applied to the device list. Whatever
      the command, the list keeps its length, order, ids and every field but
      status and value; only lights, thermostats and locks can change; a
      status only ever becomes "on", "off" or "locked", so no command
      unlocks, arms or disarms anything, and a lock either keeps its status
      or becomes locked; and the list stays well formed. */
  function Interpret(ds: seq<Device>, command: string): (r: seq<Device>)
    ensures Framed(ds, r)
    ensures forall i :: 0 <= i < |ds| && ds[i].kind !in {Light, Thermostat, Lock} ==> r[i] == ds[i]
    ensures forall i :: 0 <= i < |ds| && r[i].status != ds[i].status ==> r[i].status in {On, Off, Locked}
    ensures forall i :: 0 <= i < |ds| && ds[i].kind == Lock ==> r[i].status in {ds[i].status, Locked}
    ensures WellFormed(ds) ==> WellFormed(r)
  {
    var r := Apply(Classify(command), ds);
    FramedWellFormed(ds, r);
    r
  }

  // ---------------------------------------------------------------------
  // Properties of the interpreter

  /** Only the lower-cased command matters: commands that differ only in
      the case of ASCII letters are handled alike. */
  lemma ClassifyIgnoresCase(x: string, y: string)
    requires ToLower(x) == ToLower(y)
    ensures Classify(x) == Classify(y)
  {
  }

  /** Lower-casing leaves a number written between two strings without
      capitals as it is. */
  lemma {:induction false} LowerRendered(a: string, n: nat, b: string)
    requires NoUpper(a) && NoUpper(b)
    ensures ToLower(a + NatToString(n) + b) == a + NatToString(n) + b
  {
    var d := NatToString(n);
    ToLowerAppend(a + d, b);
    ToLowerAppend(a, d);
    ToLowerNoUpper(a);
    ToLowerNoUpper(d);
    ToLowerNoUpper(b);
  }

  /** A command that names the thermostat or the temperature, before or
      after its number, and says neither "turn off" nor "turn on", sets
      every thermostat to that number. */
  lemma {:induction false} TemperatureCommand(a: string, n: nat, b: string)
    requires NoUpper(a) && NoUpper(b)
    requires NoDigits(a) && (b == [] || !IsDigit(b[0]))
    requires !Occurs(a, "turn off") && !Occurs(b, "turn off")
    requires !Occurs(a, "turn on") && !Occurs(b, "turn on")
    requires Occurs(a, "thermostat") || Occurs(a, "temperature") ||
             Occurs(b, "thermostat") || Occurs(b, "temperature")
    ensures Classify(a + NatToString(n) + b) == SetTemperature(Some(n))
  {
    var d := NatToString(n);
    var c := a + d + b;
    LowerRendered(a, n, b);
    OccursAroundDigits(a, d, b, "turn off");
    OccursAroundDigits(a, d, b, "turn on");
    assert c == a + (d + b);
    OccursInPrefix(a, d + b, "thermostat");
    OccursInPrefix(a, d + b, "temperature");
    assert c == (a + d) + b;
    OccursInSuffix(a + d, b, "thermostat");
    OccursInSuffix(a + d, b, "temperature");
    FirstNumberOfRendered(a, n, b);
  }

  lemma SetThermostatKeywords(a: string, b: string)
    requires a == "set thermostat to " && b == " degrees"
    ensures NoUpper(a) && NoUpper(b) && NoDigits(a) && !IsDigit(b[0])
    ensures !Occurs(a, "turn off") && !Occurs(b, "turn off")
    ensures !Occurs(a, "turn on") && !Occurs(b, "turn on")
    ensures Occurs(a, "thermostat")
  {
    assert !Occurs(a, "turn off") by { AbsentCharNotOccurs(a, "turn off", 'u'); }
    assert !Occurs(b, "turn off") by { AbsentCharNotOccurs(b, "turn off", 't'); }
    assert !Occurs(a, "turn on") by { AbsentCharNotOccurs(a, "turn on", 'u'); }
    assert !Occurs(b, "turn on") by { AbsentCharNotOccurs(b, "turn on", 't'); }
    assert OccursAt(a, "thermostat", 4);
  }

  /** Every number a "set thermostat to ... degrees" command can carry is
      the number every thermostat is set to. */
  lemma SetThermostatCommand(n: nat)
    ensures Classify("set thermostat to " + NatToString(n) + " degrees") == SetTemperature(Some(n))
  {
    SetThermostatKeywords("set thermostat to ", " degrees");
    TemperatureCommand("set thermostat to ", n, " degrees");
  }

  /** The "Set Comfort Mode" quick action sets every thermostat to 20. */
  lemma ComfortModeAction(command: string)
    requires command == "set thermostat to 20 degrees"
    ensures Classify(command) == SetTemperature(Some(20))
  {
    assert NatToString(20) == "20";
    assert command == "set thermostat to " + NatToString(20) + " degrees";
    SetThermostatCommand(20);
  }

  lemma LightsOffKeywords(c: string)
    requires c == "turn off all lights"
    ensures ToLower(c) == c && Occurs(c, "turn off") && Occurs(c, "light")
  {
    assert OccursAt(c, "turn off", 0) && OccursAt(c, "light", 13);
  }

  /** The "Turn Off All Lights" quick action turns every light off. */
  lemma LightsOffAction(command: string)
    requires command == "turn off all lights"
    ensures Classify(command) == LightsOff
  {
    LightsOffKeywords(command);
  }

  /* The lemmas below are about fixed command strings. Each takes the string
     as a parameter equal to its literal, and the characters a literal lacks
     are stated in a separate `...Chars` lemma: proving those facts in the
     same proof as the occurrence reasoning makes the solver unstable. */
  lemma LockDoorsChars(c: string)
    requires c == "lock all doors"
    ensures 't' !in c
  {
  }

  lemma LockDoorsKeywords(c: string)
    requires c == "lock all doors"
    ensures ToLower(c) == c
    ensures !Occurs(c, "turn off") && !Occurs(c, "turn on")
    ensures !Occurs(c, "thermostat") && !Occurs(c, "temperature") && Occurs(c, "lock")
  {
    LockDoorsChars(c);
    assert !Occurs(c, "turn off") by { AbsentCharNotOccurs(c, "turn off", 't'); }
    assert !Occurs(c, "turn on") by { AbsentCharNotOccurs(c, "turn on", 't'); }
    assert !Occurs(c, "thermostat") by { AbsentCharNotOccurs(c, "thermostat", 't'); }
    assert !Occurs(c, "temperature") by { AbsentCharNotOccurs(c, "temperature", 't'); }
    assert OccursAt(c, "lock", 0);
  }

  /** The "Lock All Doors" quick action locks every lock. */
  lemma LockDoorsAction(command: string)
    requires command == "lock all doors"
    ensures Classify(command) == LockAll
  {
    LockDoorsKeywords(command);
  }

  lemma GoodNightChars(c: string)
    requires c == "good night"
    ensures 'u' !in c && 'e' !in c && 'l' !in c
  {
  }

  lemma GoodNightKeywords(c: string)
    requires c == "good night"
    ensures ToLower(c) == c
    ensures !Occurs(c, "turn off") && !Occurs(c, "turn on")
    ensures !Occurs(c, "thermostat") && !Occurs(c, "temperature") && !Occurs(c, "lock")
    ensures !Occurs(c, "light")
  {
    GoodNightChars(c);
    assert !Occurs(c, "light") by { AbsentCharNotOccurs(c, "light", 'l'); }
    assert !Occurs(c, "turn off") by { AbsentCharNotOccurs(c, "turn off", 'u'); }
    assert !Occurs(c, "turn on") by { AbsentCharNotOccurs(c, "turn on", 'u'); }
    assert !Occurs(c, "thermostat") by { AbsentCharNotOccurs(c, "thermostat", 'e'); }
    assert !Occurs(c, "lock") by { AbsentCharNotOccurs(c, "lock", 'l'); }
  }

  /** The "Good Night Mode" quick action matches no branch and changes
      nothing. */
  lemma GoodNightAction(command: string, ds: seq<Device>)
    requires command == "good night"
    ensures Classify(command) == Unrecognized
    ensures Interpret(ds, command) == ds
  {
    GoodNightKeywords(command);
  }

  /** A command whose lower-cased form has none of "light", "thermostat",
      "temperature" and "lock" matches no branch and changes nothing. */
  lemma NonsenseCommand(command: string, ds: seq<Device>)
    requires var c := ToLower(command);
      !Occurs(c, "light") && !Occurs(c, "thermostat") && !Occurs(c, "temperature") && !Occurs(c, "lock")
    ensures Classify(command) == Unrecognized
    ensures Interpret(ds, command) == ds
  {
  }

  /** "xyzzy" is such a command. */
  lemma XyzzyCommand(command: string, ds: seq<Device>)
    requires command == "xyzzy"
    ensures Classify(command) == Unrecognized
    ensures Interpret(ds, command) == ds
  {
    assert ToLower(command) == command;
    assert !Occurs(command, "light") by { AbsentCharNotOccurs(command, "light", 'l'); }
    assert !Occurs(command, "thermostat") by { AbsentCharNotOccurs(command, "thermostat", 't'); }
    assert !Occurs(command, "temperature") by { AbsentCharNotOccurs(command, "temperature", 't'); }
    assert !Occurs(command, "lock") by { AbsentCharNotOccurs(command, "lock", 'l'); }
    NonsenseCommand(command, ds);
  }

  lemma LightAndLockKeywords(c: string)
    requires c == "turn off the light and lock"
    ensures ToLower(c) == c && Occurs(c, "turn off") && Occurs(c, "light") && Occurs(c, "lock")
  {
    assert NoUpper(c);
    ToLowerNoUpper(c);
    assert OccursAt(c, "turn off", 0);
    assert OccursAt(c, "light", 13);
    assert OccursAt(c, "lock", 23);
  }

  /** The first matching branch wins: a command that has "turn off" and
      "light" turns the lights off and leaves every lock as it was, whatever
      else it contains. */
  lemma FirstMatchWins(command: string, ds: seq<Device>)
    requires var c := ToLower(command); Occurs(c, "turn off") && Occurs(c, "light")
    ensures Classify(command) == LightsOff
    ensures forall i :: 0 <= i < |ds| && ds[i].kind == Lock ==> Interpret(ds, command)[i] == ds[i]
  {
  }

  /** "turn off the light and lock" contains "lock" but only turns the
      lights off. */
  lemma LightAndLockCommand(command: string, ds: seq<Device>)
    requires command == "turn off the light and lock"
    ensures Occurs(command, "lock")
    ensures Classify(command) == LightsOff
    ensures forall i :: 0 <= i < |ds| && ds[i].kind == Lock ==> Interpret(ds, command)[i] == ds[i]
  {
    LightAndLockKeywords(command);
    FirstMatchWins(command, ds);
  }

  lemma UnlockChars(c: string)
    requires c == "unlock the front door"
    ensures 'u' !in c[1..15] && 'u' !in c[1..16] && 'm' !in c
  {
  }

  lemma UnlockKeywords(c: string)
    requires c == "unlock the front door"
    ensures ToLower(c) == c
    ensures !Occurs(c, "turn off") && !Occurs(c, "turn on")
    ensures !Occurs(c, "thermostat") && !Occurs(c, "temperature") && Occurs(c, "lock")
  {
    UnlockChars(c);
    assert !Occurs(c, "turn off") by { AbsentAtOffsetNotOccurs(c, "turn off", 1); }
    assert !Occurs(c, "turn on") by { AbsentAtOffsetNotOccurs(c, "turn on", 1); }
    assert !Occurs(c, "thermostat") by { AbsentCharNotOccurs(c, "thermostat", 'm'); }
    assert !Occurs(c, "temperature") by { AbsentCharNotOccurs(c, "temperature", 'm'); }
    assert OccursAt(c, "lock", 2);
  }

  /** There is no unlock command: "unlock the front door" contains "lock"
      and so locks every lock. */
  lemma UnlockCommandLocks(command: string, ds: seq<Device>)
    requires command == "unlock the front door"
    ensures Classify(command) == LockAll
    ensures forall i :: 0 <= i < |ds| && ds[i].kind == Lock ==> Interpret(ds, command)[i].status == Locked
  {
    UnlockKeywords(command);
  }

  lemma RaiseTemperatureChars(c: string)
    requires c == "raise the temperature"
    ensures 'n' !in c
  {
  }

  lemma RaiseTemperatureKeywords(c: string)
    requires c == "raise the temperature"
    ensures ToLower(c) == c
    ensures !Occurs(c, "turn off") && !Occurs(c, "turn on") && Occurs(c, "temperature")
    ensures NoDigits(c)
  {
    RaiseTemperatureChars(c);
    assert NoUpper(c) && NoDigits(c);
    ToLowerNoUpper(c);
    assert !Occurs(c, "turn off") by { AbsentCharNotOccurs(c, "turn off", 'n'); }
    assert !Occurs(c, "turn on") by { AbsentCharNotOccurs(c, "turn on", 'n'); }
    assert OccursAt(c, "temperature", 10);
  }

  /** A command that reaches the temperature branch but holds no digit
      sets no thermostat and changes nothing. */
  lemma TemperatureWithoutNumber(command: string, ds: seq<Device>)
    requires Classify(command).SetTemperature? && NoDigits(command)
    ensures Classify(command) == SetTemperature(None)
    ensures Interpret(ds, command) == ds
  {
    ToLowerKeepsDigits(command);
  }

  /** "raise the temperature" is such a command. */
  lemma RaiseTemperatureCommand(command: string, ds: seq<Device>)
    requires command == "raise the temperature"
    ensures Classify(command) == SetTemperature(None)
    ensures Interpret(ds, command) == ds
  {
    RaiseTemperatureKeywords(command);
    TemperatureWithoutNumber(command, ds);
  }

  /** Interpreting a command twice is interpreting it once. */
  lemma InterpretIdempotent(ds: seq<Device>, command: string)
    ensures Interpret(Interpret(ds, command), command) == Interpret(ds, command)
  {
  }
}

=== FILE: devices.dfy ===
/** The device record and everything a device card derives from it: whether
    the device counts as active, the status line, and the switch, slider and
    battery bar a card shows. Device lists and their updates are in `Store`. */
module Devices {
  import opened Wrappers
  import opened Text

  datatype DeviceType = Light | Thermostat | Lock | Security | Camera | Speaker | Tv | Fan

  datatype Status = On | Off | Locked | Unlocked | Armed | Disarmed

  /** One smart-home device. The source's `type` field is called `kind`
      here; `value` is a brightness percentage or a temperature. */
  datatype Device = Device(
    id: string,
    name: string,
    kind: DeviceType,
    status: Status,
    value: Option<int>,
    unit: Option<string>,
    room: Option<string>,
    battery: Option<int>,
    isOnline: bool)

  /** The statuses a device of the given type may hold. */
  function LegalStatuses(k: DeviceType): set<Status> {
    match k
    case Lock => {Locked, Unlocked}
    case Security => {Armed, Disarmed}
    case _ => {On, Off}
  }

  predicate Legal(d: Device) {
    d.status in LegalStatuses(d.kind)
  }

  /** The one legal status of each type that a card shows as active. */
  function ActiveStatus(k: DeviceType): Status {
    match k
    case Lock => Locked
    case Security => Armed
    case _ => On
  }

  /** A card's `isActive`: the status is the active status of some type. */
  predicate IsActive(s: Status): (b: bool)
    ensures b <==> exists k: DeviceType :: s == ActiveStatus(k)
  {
    assert s == On ==> s == ActiveStatus(Light);
    assert s == Locked ==> s == ActiveStatus(Lock);
    assert s == Armed ==> s == ActiveStatus(Security);
    s == On || s == Locked || s == Armed
  }

  /** A legal device is active exactly when it holds its type's active
      status; every type has exactly one active and one inactive legal status. */
  lemma ActiveIffActiveStatus(d: Device)
    requires Legal(d)
    ensures IsActive(d.status) <==> d.status == ActiveStatus(d.kind)
    ensures ActiveStatus(d.kind) in LegalStatuses(d.kind)
    ensures exists s :: s in LegalStatuses(d.kind) && !IsActive(s)
  {
    match d.kind
    case Lock => assert !IsActive(Unlocked);
    case Security => assert !IsActive(Disarmed);
    case _ => assert !IsActive(Off);
  }

  /** The status a toggle gives a device of type `k` whose status is `s`:
      a lock flips between locked and unlocked, a security system between
      armed and disarmed, and every other type goes to "off" from "on" and
      to "on" from anything else. */
  function ToggleStatus(k: DeviceType, s: Status): (r: Status)
    ensures r in LegalStatuses(k)
    ensures r != s
    ensures s in LegalStatuses(k) ==> IsActive(r) != IsActive(s)
    ensures k == Lock ==> (r == Unlocked <==> s == Locked)
    ensures k == Security ==> (r == Disarmed <==> s == Armed)
    ensures k !in {Lock, Security} ==> (r == Off <==> s == On)
  {
    match k
    case Lock => if s == Locked then Unlocked else Locked
    case Security => if s == Armed then Disarmed else Armed
    case _ => if s == On then Off else On
  }

  /** Toggling twice restores the status of a device whose status is legal. */
  lemma ToggleStatusInvolution(k: DeviceType, s: Status)
    requires s in LegalStatuses(k)
    ensures ToggleStatus(k, ToggleStatus(k, s)) == s
  {
  }

  /** Without legality the involution fails: a light that is "locked" is
      toggled to "on" and then to "off". */
  lemma ToggleStatusIllegalNotInvolution()
    ensures Locked !in LegalStatuses(Light)
    ensures ToggleStatus(Light, ToggleStatus(Light, Locked)) == Off
  {
  }

  // ---------------------------------------------------------------------
  // The status line

  /** `${device.value}`: the number, or "undefined" when there is none. */
  function ValueText(v: Option<int>): (r: string)
    ensures r == "undefined" <==> v.None?
    ensures v.Some? ==> |r| > 0 && (r[0] == '-' <==> v.value < 0)
  {
    match v
    case None => "undefined"
    case Some(n) => IntToString(n)
  }

  /** `device.unit || "C"`: a missing or empty unit shows as "C". */
  function UnitText(u: Option<string>): (r: string)
    ensures r != ""
    ensures u.Some? && u.value != "" ==> r == u.value
    ensures u.None? || u.value == "" ==> r == "C"
  {
    if u.Some? && u.value != "" then u.value else "C"
  }

  /** `device.value || 100`: a missing or zero brightness shows as 100. */
  function ShownBrightness(v: Option<int>): (r: int)
    ensures r != 0
    ensures v.Some? && v.value != 0 ==> r == v.value
    ensures v.None? || v.value == 0 ==> r == 100
  {
    if v.Some? && v.value != 0 then v.value else 100
  }

  /** A card's status line. */
  function StatusText(d: Device): (r: string)
    ensures d.kind == Thermostat ==> r == ValueText(d.value) + "°" + UnitText(d.unit)
    ensures d.kind == Light && d.status == On ==> r == IntToString(ShownBrightness(d.value)) + "% brightness"
    ensures d.kind == Light && d.status != On ==> r == "Off"
    ensures d.kind == Lock ==> (r == "Locked" <==> d.status == Locked) && (r == "Locked" || r == "Unlocked")
    ensures d.kind == Security ==> (r == "Armed" <==> d.status == Armed) && (r == "Armed" || r == "Disarmed")
    ensures d.kind !in {Thermostat, Light, Lock, Security} ==> (r == "On" <==> d.status == On) && (r == "On" || r == "Off")
  {
    match d.kind
    case Thermostat => ValueText(d.value) + "°" + UnitText(d.unit)
    case Light => if d.status == On then IntToString(ShownBrightness(d.value)) + "% brightness" else "Off"
    case Lock => if d.status == Locked then "Locked" else "Unlocked"
    case Security => if d.status == Armed then "Armed" else "Disarmed"
    case _ => if d.status == On then "On" else "Off"
  }

  /** The label a card shows for a device of type `k` in its active state. */
  function ActiveLabel(k: DeviceType): string {
    match k
    case Lock => "Locked"
    case Security => "Armed"
    case _ => "On"
  }

  /** For a legal lock, security system, camera, speaker, TV or fan the
      status line is the type's active label exactly when the card shows
      the device as active; for a light it reads "Off" exactly when the
      light is not on. */
  lemma StatusTextShowsActivity(d: Device)
    requires Legal(d) && d.kind != Thermostat
    ensures d.kind != Light ==> (StatusText(d) == ActiveLabel(d.kind) <==> IsActive(d.status))
    ensures d.kind == Light ==> (StatusText(d) == "Off" <==> !IsActive(d.status))
  {
    if d.kind == Light && d.status == On {
      var t := StatusText(d);
      assert t[|t| - 1] == 's';
    }
  }

  /** A light that is on with brightness 0 or no brightness reads
      "100% brightness". */
  lemma DarkLightShowsFullBrightness(d: Device)
    requires d.kind == Light && d.status == On
    requires d.value == Some(0) || d.value == None
    ensures StatusText(d) == "100% brightness"
  {
    assert NatToString(100) == NatToString(10) + ['0'];
    assert NatToString(10) == "10";
  }

  /** The temperature a thermostat shows reads back, as the first number on
      its status line, as the value it holds. */
  lemma ThermostatTextReadsBack(d: Device)
    requires d.kind == Thermostat && d.value.Some? && d.value.value >= 0
    ensures FirstNumber(StatusText(d)) == Some(d.value.value)
  {
    var rest := "°" + UnitText(d.unit);
    FirstNumberOfRendered([], d.value.value, rest);
    assert StatusText(d) == [] + NatToString(d.value.value) + rest;
  }

  // ---------------------------------------------------------------------
  // Controls

  /** The on/off switch: whether it is checked and whether it is disabled. */
  datatype Switch = Switch(checked: bool, disabled: bool)

  /** The value slider with its bounds and step. */
  datatype Slider = Slider(value: int, min: int, max: int, step: nat, disabled: bool)

  /** The battery bar: the percentage shown and whether it uses the healthy
      colour. */
  datatype BatteryBar = BatteryBar(percent: int, healthy: bool)

  /** The switch a card renders: every type but a thermostat has one, it is
      checked when the device is active, and it is disabled exactly when the
      device is offline. */
  function SwitchOf(d: Device): (r: Option<Switch>)
    ensures r.Some? <==> d.kind != Thermostat
    ensures r.Some? ==> r.value.checked == IsActive(d.status)
    ensures r.Some? ==> (r.value.disabled <==> !d.isOnline)
  {
    if d.kind == Thermostat then None
    else Some(Switch(IsActive(d.status), !d.isOnline))
  }

  /** The slider a card renders: only a light or a thermostat with a value
      has one; a thermostat's runs over [10, 30] by 1 and a light's over
      [0, 100] by 5; it is disabled when the device is offline or when a
      light is "off". */
  function SliderOf(d: Device): (r: Option<Slider>)
    ensures r.Some? <==> (d.kind == Light || d.kind == Thermostat) && d.value.Some?
    ensures r.Some? ==> r.value.value == d.value.value
    ensures r.Some? && d.kind == Thermostat ==> r.value.min == 10 && r.value.max == 30 && r.value.step == 1
    ensures r.Some? && d.kind == Light ==> r.value.min == 0 && r.value.max == 100 && r.value.step == 5
    ensures r.Some? ==> (r.value.disabled <==> !d.isOnline || (d.kind == Light && d.status == Off))
  {
    if (d.kind == Light || d.kind == Thermostat) && d.value.Some? then
      var thermo := d.kind == Thermostat;
      Some(Slider(
        d.value.value,
        if thermo then 10 else 0,
        if thermo then 30 else 100,
        if thermo then 1 else 5,
        !d.isOnline || (d.kind == Light && d.status == Off)))
    else
      None
  }

  /** The battery bar a card renders: present exactly when the device
      reports a battery level, healthy exactly above 20 percent. */
  function BatteryOf(d: Device): (r: Option<BatteryBar>)
    ensures r.Some? <==> d.battery.Some?
    ensures r.Some? ==> r.value.percent == d.battery.value
    ensures r.Some? ==> (r.value.healthy <==> d.battery.value > 20)
  {
    match d.battery
    case None => None
    case Some(b) => Some(BatteryBar(b, b > 20))
  }

  /** The value update a slider movement sends to the dashboard. */
  datatype ValueChange = ValueChange(id: string, value: Option<int>)

  /** A slider movement forwards the first element of the slider's value
      array as the new value of this card's device; an empty array forwards
      `undefined`. */
  function SliderChange(d: Device, newValue: seq<int>): (r: ValueChange)
    ensures r.id == d.id
    ensures |newValue| > 0 ==> r.value == Some(newValue[0])
    ensures |newValue| == 0 ==> r.value.None?
  {
    ValueChange(d.id, if |newValue| > 0 then Some(newValue[0]) else None)
  }
}

=== FILE: store.dfy ===
/** The dashboard's device list and the two reducers its cards call:
    toggling a device and setting a device's value, both keyed by device id,
    plus the header's online and active counts and the seed list. */
module Store {
  import opened Wrappers
  import opened Devices

  /** Applies `f` to every device and keeps the order: the source's
      `prev.map(...)`. */
  function MapDevices(ds: seq<Device>, f: Device -> Device): (r: seq<Device>)
    ensures |r| == |ds|
    ensures forall i :: 0 <= i < |ds| ==> r[i] == f(ds[i])
  {
    seq(|ds|, i requires 0 <= i < |ds| => f(ds[i]))
  }

  ghost predicate UniqueIds(ds: seq<Device>) {
    forall i, j :: 0 <= i < j < |ds| ==> ds[i].id != ds[j].id
  }

  ghost predicate AllLegal(ds: seq<Device>) {
    forall i :: 0 <= i < |ds| ==> Legal(ds[i])
  }

  /** The invariant of the device list: ids are unique and every status is
      legal for its device's type. */
  ghost predicate WellFormed(ds: seq<Device>) {
    UniqueIds(ds) && AllLegal(ds)
  }

  /** `b` is `a` with at most its status and its value changed. */
  predicate SameButStatusValue(a: Device, b: Device) {
    b == a.(status := b.status, value := b.value)
  }

  /** `r` is `ds` with the same length and order and with at most the status
      and value of each device changed. */
  ghost predicate Framed(ds: seq<Device>, r: seq<Device>) {
    |r| == |ds| && forall i :: 0 <= i < |ds| ==> SameButStatusValue(ds[i], r[i])
  }

  /** A list that keeps every id and every legal status keeps the invariant. */
  lemma FramedWellFormed(ds: seq<Device>, r: seq<Device>)
    requires Framed(ds, r)
    ensures WellFormed(ds) && AllLegal(r) ==> WellFormed(r)
  {
    assert forall i :: 0 <= i < |ds| ==> r[i].id == ds[i].id;
  }

  // ---------------------------------------------------------------------
  // Toggle

  function ToggleDevice(d: Device): Device {
    d.(status := ToggleStatus(d.kind, d.status))
  }

  /** `handleDeviceToggle(id)`: every device with this id gets its type's
      toggled status; every other device is returned as it was. */
  function Toggle(ds: seq<Device>, id: string): (r: seq<Device>)
    ensures Framed(ds, r)
    ensures forall i :: 0 <= i < |ds| ==> r[i].value == ds[i].value
    ensures forall i :: 0 <= i < |ds| && ds[i].id == id ==> r[i].status == ToggleStatus(ds[i].kind, ds[i].status)
    ensures forall i :: 0 <= i < |ds| && ds[i].id != id ==> r[i] == ds[i]
    ensures (forall i :: 0 <= i < |ds| ==> ds[i].id != id) ==> r == ds
  {
    MapDevices(ds, (d: Device) => if d.id == id then ToggleDevice(d) else d)
  }

  /** Toggling keeps the list well formed. */
  lemma ToggleWellFormed(ds: seq<Device>, id: string)
    requires WellFormed(ds)
    ensures WellFormed(Toggle(ds, id))
  {
    FramedWellFormed(ds, Toggle(ds, id));
  }

  /** Toggling the same id twice restores a list whose statuses are legal. */
  lemma ToggleTwice(ds: seq<Device>, id: string)
    requires AllLegal(ds)
    ensures Toggle(Toggle(ds, id), id) == ds
  {
    var r := Toggle(Toggle(ds, id), id);
    forall i | 0 <= i < |ds|
      ensures r[i] == ds[i]
    {
      if ds[i].id == id {
        ToggleStatusInvolution(ds[i].kind, ds[i].status);
      }
    }
  }

  /** Toggles of two ids commute. */
  lemma ToggleCommutes(ds: seq<Device>, a: string, b: string)
    ensures Toggle(Toggle(ds, a), b) == Toggle(Toggle(ds, b), a)
  {
  }

  // ---------------------------------------------------------------------
  // Set value

  /** `handleDeviceValueChange(id, value)`: every device with this id gets
      exactly this value, with no clamping and whatever its type; every
      other device is returned as it was. */
  function SetValue(ds: seq<Device>, id: string, v: Option<int>): (r: seq<Device>)
    ensures Framed(ds, r)
    ensures forall i :: 0 <= i < |ds| ==> r[i].status == ds[i].status
    ensures forall i :: 0 <= i < |ds| && ds[i].id == id ==> r[i].value == v
    ensures forall i :: 0 <= i < |ds| && ds[i].id != id ==> r[i] == ds[i]
    ensures (forall i :: 0 <= i < |ds| ==> ds[i].id != id) ==> r == ds
  {
    MapDevices(ds, (d: Device) => if d.id == id then d.(value := v) else d)
  }

  /** Setting a value keeps the list well formed. */
  lemma SetValueWellFormed(ds: seq<Device>, id: string, v: Option<int>)
    requires WellFormed(ds)
    ensures WellFormed(SetValue(ds, id, v))
  {
    FramedWellFormed(ds, SetValue(ds, id, v));
  }

  /** Of two values set on one id, the last wins; setting the value a list
      already holds changes nothing. */
  lemma SetValueLastWins(ds: seq<Device>, id: string, a: Option<int>, b: Option<int>)
    ensures SetValue(SetValue(ds, id, a), id, b) == SetValue(ds, id, b)
    ensures (forall i :: 0 <= i < |ds| && ds[i].id == id ==> ds[i].value == a) ==> SetValue(ds, id, a) == ds
  {
  }

  /** Setting a value and toggling touch different fields, so they commute. */
  lemma SetValueToggleCommute(ds: seq<Device>, a: string, v: Option<int>, b: string)
    ensures Toggle(SetValue(ds, a, v), b) == SetValue(Toggle(ds, b), a, v)
  {
  }

  // ---------------------------------------------------------------------
  // Header counts

  /** The number of devices satisfying `p`: `ds.filter(p).length`. */
  function CountWhere(ds: seq<Device>, p: Device -> bool): (n: nat)
    ensures n <= |ds|
    ensures n == |ds| <==> forall i :: 0 <= i < |ds| ==> p(ds[i])
    ensures n == 0 <==> forall i :: 0 <= i < |ds| ==> !p(ds[i])
  {
    if ds == [] then 0
    else
      assert forall i :: 1 <= i < |ds| ==> ds[i] == ds[1..][i - 1];
      (if p(ds[0]) then 1 else 0) + CountWhere(ds[1..], p)
  }

  lemma {:induction false} CountWhereAppend(a: seq<Device>, b: seq<Device>, p: Device -> bool)
    ensures CountWhere(a + b, p) == CountWhere(a, p) + CountWhere(b, p)
  {
    if a == [] {
      assert a + b == b;
    } else {
      assert (a + b)[1..] == a[1..] + b;
      CountWhereAppend(a[1..], b, p);
    }
  }

  /** Two lists of one length whose devices agree on `p` have one count. */
  lemma {:induction false} CountWhereAgree(a: seq<Device>, b: seq<Device>, p: Device -> bool)
    requires |a| == |b|
    requires forall i :: 0 <= i < |a| ==> p(a[i]) == p(b[i])
    ensures CountWhere(a, p) == CountWhere(b, p)
  {
    if a != [] {
      CountWhereAgree(a[1..], b[1..], p);
    }
  }

  predicate IsOnline(d: Device) { d.isOnline }

  predicate IsActiveDevice(d: Device) { IsActive(d.status) }

  /** The header's "online" badge. */
  function OnlineCount(ds: seq<Device>): (n: nat)
    ensures n <= |ds|
    ensures n == |ds| <==> forall i :: 0 <= i < |ds| ==> ds[i].isOnline
    ensures n == 0 <==> forall i :: 0 <= i < |ds| ==> !ds[i].isOnline
  {
    CountWhere(ds, IsOnline)
  }

  /** The header's "active" badge: devices that are on, locked or armed. */
  function ActiveCount(ds: seq<Device>): (n: nat)
    ensures n <= |ds|
    ensures n == |ds| <==> forall i :: 0 <= i < |ds| ==> ds[i].status in {On, Locked, Armed}
    ensures n == 0 <==> forall i :: 0 <= i < |ds| ==> ds[i].status !in {On, Locked, Armed}
  {
    CountWhere(ds, IsActiveDevice)
  }

  /** No change of status or value moves the online count. */
  lemma FramedOnlineCount(ds: seq<Device>, r: seq<Device>)
    requires Framed(ds, r)
    ensures OnlineCount(r) == OnlineCount(ds)
  {
    CountWhereAgree(ds, r, IsOnline);
  }

  /** An update that changes only statuses and values leaves every card's
      battery bar as it was. */
  lemma FramedKeepsBattery(ds: seq<Device>, r: seq<Device>)
    requires Framed(ds, r)
    ensures forall i :: 0 <= i < |ds| ==> BatteryOf(r[i]) == BatteryOf(ds[i])
  {
  }

  /** In a well-formed list, toggling the device with a given id moves the
      active count by exactly one: down if the device was active, up if not. */
  lemma ToggleActiveCount(ds: seq<Device>, k: nat)
    requires WellFormed(ds) && k < |ds|
    ensures ActiveCount(Toggle(ds, ds[k].id)) ==
      ActiveCount(ds) + (if IsActive(ds[k].status) then -1 else 1)
  {
    var id := ds[k].id;
    var r := Toggle(ds, id);
    assert ds == ds[..k] + [ds[k]] + ds[k + 1..];
    assert r == r[..k] + [r[k]] + r[k + 1..];
    CountWhereAgree(ds[..k], r[..k], IsActiveDevice);
    CountWhereAgree(ds[k + 1..], r[k + 1..], IsActiveDevice);
    CountWhereAppend(ds[..k] + [ds[k]], ds[k + 1..], IsActiveDevice);
    CountWhereAppend(ds[..k], [ds[k]], IsActiveDevice);
    CountWhereAppend(r[..k] + [r[k]], r[k + 1..], IsActiveDevice);
    CountWhereAppend(r[..k], [r[k]], IsActiveDevice);
  }

  // ---------------------------------------------------------------------
  // Seed list

  /** The six devices the dashboard starts with. */
  function Seed(): (r: seq<Device>)
    ensures |r| == 6 && WellFormed(r)
  {
    [ Device("1", "Living Room Lights", Light, On, Some(75), None, Some("Living Room"), None, true),
      Device("2", "Main Thermostat", Thermostat, On, Some(22), Some("C"), Some("Hallway"), None, true),
      Device("3", "Front Door", Lock, Locked, None, None, Some("Entrance"), Some(85), true),
      Device("4", "Security System", Security, Disarmed, None, None, Some("Main Panel"), None, true),
      Device("5", "Bedroom Lights", Light, Off, Some(0), None, Some("Bedroom"), None, true),
      Device("6", "Kitchen Camera", Camera, On, None, None, Some("Kitchen"), None, false) ]
  }

  /** The header of a fresh dashboard reads "5 online" and "4 active". */
  lemma SeedCounts()
    ensures OnlineCount(Seed()) == 5
    ensures ActiveCount(Seed()) == 4
  {
  }
}

=== FILE: text.dfy ===
/** String helpers the dashboard relies on: ASCII lower-casing
    (`toLowerCase`), substring search (`includes`), the leftmost run of
    decimal digits that the regular expression `/(\d+)/` captures, and decimal
    conversion in both directions (`parseInt` on a digit run, and the
    rendering of an integer inside a template literal). */
module Text {
  import opened Wrappers

  predicate IsUpper(c: char) { 'A' <= c <= 'Z' }

  predicate IsDigit(c: char) { '0' <= c <= '9' }

  function LowerChar(c: char): char {
    if IsUpper(c) then (c as int - 'A' as int + 'a' as int) as char else c
  }

  /** `toLowerCase`, restricted to the ASCII capitals. */
  function ToLower(s: string): (r: string)
    ensures |r| == |s|
    ensures forall i :: 0 <= i < |s| ==> r[i] == LowerChar(s[i])
    ensures forall i :: 0 <= i < |r| ==> !IsUpper(r[i])
  {
    seq(|s|, i requires 0 <= i < |s| => LowerChar(s[i]))
  }

  predicate NoUpper(s: string) {
    forall i :: 0 <= i < |s| ==> !IsUpper(s[i])
  }

  /** Lower-casing leaves a string without capitals as it is. */
  lemma ToLowerNoUpper(s: string)
    requires NoUpper(s)
    ensures ToLower(s) == s
  {
  }

  /** Lower-casing twice is lower-casing once. */
  lemma ToLowerIdempotent(s: string)
    ensures ToLower(ToLower(s)) == ToLower(s)
  {
  }

  /** Lower-casing moves no digit and creates none, so the digit run a
      command holds is the same before and after lower-casing. */
  lemma ToLowerKeepsDigits(s: string)
    ensures forall i :: 0 <= i < |s| ==> (IsDigit(ToLower(s)[i]) <==> IsDigit(s[i]))
    ensures forall i :: 0 <= i < |s| && IsDigit(s[i]) ==> ToLower(s)[i] == s[i]
  {
  }

  /** Lower-casing distributes over concatenation. */
  lemma ToLowerAppend(a: string, b: string)
    ensures ToLower(a + b) == ToLower(a) + ToLower(b)
  {
    assert forall i :: 0 <= i < |a + b| ==> ToLower(a + b)[i] == (ToLower(a) + ToLower(b))[i];
  }

  // ---------------------------------------------------------------------
  // Substring search

  /** `sub` occurs in `s` starting at position `i`. */
  predicate OccursAt(s: string, sub: string, i: nat) {
    i + |sub| <= |s| && s[i..i + |sub|] == sub
  }

  /** `sub` occurs somewhere in `s`: the meaning of `s.includes(sub)`. */
  ghost predicate Occurs(s: string, sub: string) {
    exists i: nat :: OccursAt(s, sub, i)
  }

  /** Searches `s` for `sub` from position `i` onwards. */
  function ContainsFrom(s: string, sub: string, i: nat): (b: bool)
    ensures b <==> exists j: nat :: i <= j && OccursAt(s, sub, j)
    decreases |s| - i
  {
    if |s| < i + |sub| then false
    else if s[i..i + |sub|] == sub then assert OccursAt(s, sub, i); true
    else ContainsFrom(s, sub, i + 1)
  }

  /** JavaScript's `s.includes(sub)`. */
  function Contains(s: string, sub: string): (b: bool)
    ensures b <==> Occurs(s, sub)
  {
    ContainsFrom(s, sub, 0)
  }

  /** An occurrence in a prefix is an occurrence in the whole string. */
  lemma OccursInPrefix(a: string, t: string, w: string)
    ensures Occurs(a, w) ==> Occurs(a + t, w)
  {
    if Occurs(a, w) {
      var j: nat :| OccursAt(a, w, j);
      assert (a + t)[j..j + |w|] == a[j..j + |w|];
      assert OccursAt(a + t, w, j);
    }
  }

  /** A word found in a string is still found after text is prepended. */
  lemma OccursInSuffix(a: string, t: string, w: string)
    ensures Occurs(t, w) ==> Occurs(a + t, w)
  {
    if Occurs(t, w) {
      var j: nat :| OccursAt(t, w, j);
      assert (a + t)[|a| + j..|a| + j + |w|] == t[j..j + |w|];
      assert OccursAt(a + t, w, |a| + j);
    }
  }

  /** A word holding a character that a string lacks does not occur in it. */
  lemma AbsentCharNotOccurs(s: string, w: string, x: char)
    requires x in w && x !in s
    ensures !Occurs(s, w)
  {
    var k :| 0 <= k < |w| && w[k] == x;
    forall i: nat | i + |w| <= |s|
      ensures !OccursAt(s, w, i)
    {
      assert s[i..i + |w|][k] == s[i + k] != x;
    }
  }

  /** A word does not occur in a string when the character at its offset
      `k` is missing from every position where that offset can fall. */
  lemma AbsentAtOffsetNotOccurs(s: string, w: string, k: nat)
    requires k < |w| <= |s|
    requires w[k] !in s[k..|s| - |w| + k + 1]
    ensures !Occurs(s, w)
  {
    forall i: nat | i + |w| <= |s|
      ensures !OccursAt(s, w, i)
    {
      assert s[i + k] == s[k..|s| - |w| + k + 1][i];
      assert s[i..i + |w|][k] == s[i + k] != w[k];
    }
  }

  /** An occurrence of a digit-free word in `a + d + b`, where `d` is all
      digits, lies wholly inside `a` or wholly inside `b`. */
  lemma {:induction false} OccursAroundDigits(a: string, d: string, b: string, w: string)
    requires |d| > 0 && AllDigits(d)
    requires NoDigits(w)
    ensures Occurs(a + d + b, w) ==> Occurs(a, w) || Occurs(b, w)
  {
    var s := a + d + b;
    if !Occurs(s, w) {
      return;
    }
    var j: nat :| OccursAt(s, w, j);
    if |w| == 0 {
      assert OccursAt(a, w, 0);
    } else {
      // the window holds no digit, so it cannot cover any position of `d`
      forall p | j <= p < j + |w|
        ensures !IsDigit(s[p])
      {
        assert s[p] == s[j..j + |w|][p - j] == w[p - j];
      }
      forall q | |a| <= q < |a| + |d|
        ensures IsDigit(s[q])
      {
        assert s[q] == d[q - |a|];
      }
      if j + |w| <= |a| {
        assert s[j..j + |w|] == a[j..j + |w|];
        assert OccursAt(a, w, j);
      } else {
        var p := if j < |a| then |a| else j;
        assert !IsDigit(s[p]);
        var k: nat := j - |a| - |d|;
        assert s[j..j + |w|] == b[k..k + |w|];
        assert OccursAt(b, w, k);
      }
    }
  }

  // ---------------------------------------------------------------------
  // Digits

  predicate AllDigits(s: string) {
    forall i :: 0 <= i < |s| ==> IsDigit(s[i])
  }

  predicate NoDigits(s: string) {
    forall i :: 0 <= i < |s| ==> !IsDigit(s[i])
  }

  function DigitValue(c: char): nat
    requires IsDigit(c)
  {
    c as int - '0' as int
  }

  function DigitChar(d: nat): char
    requires d < 10
  {
    ('0' as int + d) as char
  }

  function Pow10(k: nat): (p: nat)
    ensures p >= 1
  {
    if k == 0 then 1 else 10 * Pow10(k - 1)
  }

  /** `parseInt` applied to a non-empty run of decimal digits: a run of
      `k` digits reads as a number below 10^k. */
  function ParseNat(ds: string): (n: nat)
    requires |ds| > 0 && AllDigits(ds)
    ensures n < Pow10(|ds|)
  {
    if |ds| == 1 then DigitValue(ds[0])
    else 10 * ParseNat(ds[..|ds| - 1]) + DigitValue(ds[|ds| - 1])
  }

  /** The decimal rendering of a natural number: digits only, never empty,
      and with no leading zero except for zero itself. */
  function NatToString(n: nat): (s: string)
    ensures |s| > 0 && AllDigits(s)
    ensures s[0] == '0' ==> n == 0 && s == "0"
  {
    if n < 10 then [DigitChar(n)] else NatToString(n / 10) + [DigitChar(n % 10)]
  }

  /** The rendering of an integer in a template literal: a minus sign
      exactly for a negative number, then the digits of its magnitude. */
  function IntToString(v: int): (r: string)
    ensures |r| > 0
    ensures r[0] == '-' <==> v < 0
    ensures v >= 0 ==> AllDigits(r)
    ensures v < 0 ==> |r| > 1 && AllDigits(r[1..])
  {
    if v < 0 then "-" + NatToString(-v) else NatToString(v)
  }

  /** A digit string with no superfluous leading zero. */
  predicate Canonical(ds: string) {
    |ds| > 0 && AllDigits(ds) && (ds[0] == '0' ==> |ds| == 1)
  }

  /** Parsing a rendered number gives the number back. */
  lemma {:induction false} ParseNatToString(n: nat)
    ensures ParseNat(NatToString(n)) == n
  {
    if n >= 10 {
      var s := NatToString(n);
      assert s[..|s| - 1] == NatToString(n / 10);
      ParseNatToString(n / 10);
    }
  }

  lemma {:induction false} ParseNatPositive(ds: string)
    requires |ds| > 0 && AllDigits(ds) && ds[0] != '0'
    ensures ParseNat(ds) >= 1
    ensures |ds| > 1 ==> ParseNat(ds) >= 10
  {
    if |ds| > 1 {
      ParseNatPositive(ds[..|ds| - 1]);
    }
  }

  /** Rendering a parsed canonical digit string gives the string back; so
      parsing and rendering are inverse bijections between the naturals and
      the canonical digit strings. */
  lemma {:induction false} NatToStringParseNat(ds: string)
    requires Canonical(ds)
    ensures NatToString(ParseNat(ds)) == ds
  {
    if |ds| > 1 {
      var p := ds[..|ds| - 1];
      var c := ds[|ds| - 1];
      ParseNatPositive(ds);
      NatToStringParseNat(p);
      var n := ParseNat(ds);
      assert n / 10 == ParseNat(p) && n % 10 == DigitValue(c);
      assert DigitChar(DigitValue(c)) == c;
      assert ds == p + [c];
    }
  }

  // ---------------------------------------------------------------------
  // The leftmost digit run

  /** Positions `[i, e)` hold the leftmost maximal run of decimal digits in
      `s`: the text the regular expression `/(\d+)/` captures. */
  ghost predicate FirstDigitRunAt(s: string, i: nat, e: nat) {
    && i < e <= |s|
    && (forall k :: 0 <= k < i ==> !IsDigit(s[k]))
    && (forall k :: i <= k < e ==> IsDigit(s[k]))
    && (e == |s| || !IsDigit(s[e]))
  }

  /** The end of the run of digits that starts at `i`. */
  function RunEnd(s: string, i: nat): (e: nat)
    requires i <= |s|
    ensures i <= e <= |s|
    ensures forall k :: i <= k < e ==> IsDigit(s[k])
    ensures e == |s| || !IsDigit(s[e])
    decreases |s| - i
  {
    if i < |s| && IsDigit(s[i]) then RunEnd(s, i + 1) else i
  }

  function DigitSearch(s: string, i: nat): (r: Option<(nat, nat)>)
    requires i <= |s|
    requires forall k :: 0 <= k < i ==> !IsDigit(s[k])
    ensures r.None? <==> NoDigits(s)
    ensures r.Some? ==> FirstDigitRunAt(s, r.value.0, r.value.1)
    decreases |s| - i
  {
    if i == |s| then None
    else if IsDigit(s[i]) then Some((i, RunEnd(s, i + 1)))
    else DigitSearch(s, i + 1)
  }

  /** `s.match(/(\d+)/)`: the span of the leftmost maximal digit run, or
      `None` when `s` holds no digit. */
  function MatchDigits(s: string): (r: Option<(nat, nat)>)
    ensures r.None? <==> NoDigits(s)
    ensures r.Some? ==> FirstDigitRunAt(s, r.value.0, r.value.1)
  {
    DigitSearch(s, 0)
  }

  /** At most one span is the leftmost maximal digit run. */
  lemma FirstDigitRunUnique(s: string, i: nat, e: nat, i': nat, e': nat)
    requires FirstDigitRunAt(s, i, e) && FirstDigitRunAt(s, i', e')
    ensures i == i' && e == e'
  {
    assert IsDigit(s[i]) && IsDigit(s[i']);
    assert e < |s| ==> (IsDigit(s[e]) <==> '0' <= s[e] <= '9');
    assert e' < |s| ==> (IsDigit(s[e']) <==> '0' <= s[e'] <= '9');
  }

  /** The number a string's first digit run denotes, if it has one:
      `parseInt(s.match(/(\d+)/)[1])`. */
  function FirstNumber(s: string): (r: Option<nat>)
    ensures r.None? <==> NoDigits(s)
    ensures r.Some? ==> exists i: nat, e: nat :: FirstDigitRunAt(s, i, e) && r.value == ParseNat(s[i..e])
  {
    match MatchDigits(s)
    case None => None
    case Some((i, e)) => Some(ParseNat(s[i..e]))
  }

  /** A number written, in decimal, between digit-free text and text that
      does not start with a digit is the first number read back. */
  lemma {:induction false} FirstNumberOfRendered(a: string, n: nat, b: string)
    requires NoDigits(a)
    requires b == [] || !IsDigit(b[0])
    ensures FirstNumber(a + NatToString(n) + b) == Some(n)
  {
    var d := NatToString(n);
    var s := a + d + b;
    assert FirstDigitRunAt(s, |a|, |a| + |d|);
    assert IsDigit(s[|a|]);
    match MatchDigits(s)
    case None => assert false;
    case Some((i, e)) =>
      FirstDigitRunUnique(s, i, e, |a|, |a| + |d|);
      assert s[i..e] == d;
      ParseNatToString(n);
  }
}

=== FILE: voice.dfy ===
/** The voice-control button as a state machine. Recognition is simulated:
    pressing the button schedules a chain of three timers (2000 ms, then
    1000 ms, then 2000 ms); the first picks one of six canned commands at
    random, the second hands that command to the dashboard, the third returns
    to idle. Timers are never cancelled. Here each scheduled callback is a
    pending `Timer`, its expiry is a `Fire` event naming it, and the random
    pick is a parameter of that event. */
module Voice {

  datatype VoiceState = Idle | Listening | Processing | Speaking

  /** A scheduled callback that has not run yet. `Execute` carries the
      command its session picked. */
  datatype Timer = Recognize | Execute(command: string) | Finish

  datatype Voice = Voice(state: VoiceState, lastCommand: string, pending: seq<Timer>)

  /** A press of the button (with whether the browser supports speech
      recognition), or the expiry of the pending timer at position `timer`,
      with `pick` the index the random choice lands on. */
  datatype Event = Press(supported: bool) | Fire(timer: nat, pick: nat)

  /** What a step does outside the component: nothing, the "not supported"
      alert, or a command handed to the dashboard. */
  datatype Effect = Silent | Alert | Command(text: string)

  datatype Reaction = Reaction(next: Voice, effect: Effect)

  /** The canned commands the simulated recogniser picks from. */
  const MockCommands: seq<string> := [
    "Turn off the lights",
    "Set thermostat to 22 degrees",
    "Lock the front door",
    "Turn on living room lights",
    "Set bedroom temperature to 20 degrees",
    "Show security cameras"
  ]

  const Initial: Voice := Voice(Idle, "", [])

  /** The button is disabled while a command is being processed, that is
      exactly while the caption reads "Processing...". */
  predicate ButtonDisabled(s: VoiceState): (b: bool)
    ensures b <==> StateText(s) == "Processing..."
  {
    s == Processing
  }

  /** `toggleListening`: without speech support it only alerts; while
      listening it returns to idle, leaving the scheduled timer in place;
      otherwise it starts listening and schedules the recognition timer. */
  function ToggleListening(v: Voice, supported: bool): (r: Reaction)
    ensures !supported ==> r == Reaction(v, Alert)
    ensures supported && v.state == Listening ==>
      r == Reaction(v.(state := Idle), Silent)
    ensures supported && v.state != Listening ==>
      r.next.state == Listening && r.effect == Silent &&
      r.next.lastCommand == v.lastCommand && r.next.pending == v.pending + [Recognize]
  {
    if !supported then Reaction(v, Alert)
    else if v.state == Listening then Reaction(v.(state := Idle), Silent)
    else Reaction(v.(state := Listening, pending := v.pending + [Recognize]), Silent)
  }

  function RemoveAt(ts: seq<Timer>, k: nat): (r: seq<Timer>)
    requires k < |ts|
    ensures |r| == |ts| - 1
    ensures forall t :: t in r ==> t in ts
    ensures multiset(r) == multiset(ts) - multiset{ts[k]}
  {
    assert ts == ts[..k] + [ts[k]] + ts[k + 1..];
    ts[..k] + ts[k + 1..]
  }

  /** The expiry of the pending timer at position `k`. The recognition
      timer records the picked command and enters processing, scheduling the
      execution timer; the execution timer hands its command to the
      dashboard and enters speaking, scheduling the final timer; the final
      timer returns to idle. None of them looks at the current state. */
  function FireTimer(v: Voice, k: nat, pick: nat): (r: Reaction)
    requires pick < |MockCommands|
    ensures k >= |v.pending| ==> r == Reaction(v, Silent)
    ensures k < |v.pending| && v.pending[k] == Recognize ==>
      r.next.state == Processing && r.effect == Silent &&
      r.next.lastCommand == MockCommands[pick] &&
      r.next.pending == RemoveAt(v.pending, k) + [Execute(MockCommands[pick])]
    ensures k < |v.pending| && v.pending[k].Execute? ==>
      r.next.state == Speaking && r.effect == Command(v.pending[k].command) &&
      r.next.lastCommand == v.lastCommand &&
      r.next.pending == RemoveAt(v.pending, k) + [Finish]
    ensures k < |v.pending| && v.pending[k] == Finish ==>
      r.next.state == Idle && r.effect == Silent &&
      r.next.lastCommand == v.lastCommand &&
      r.next.pending == RemoveAt(v.pending, k)
  {
    if k >= |v.pending| then Reaction(v, Silent)
    else
      var rest := RemoveAt(v.pending, k);
      match v.pending[k]
      case Recognize =>
        var command := MockCommands[pick];
        Reaction(Voice(Processing, command, rest + [Execute(command)]), Silent)
      case Execute(command) =>
        Reaction(Voice(Speaking, v.lastCommand, rest + [Finish]), Command(command))
      case Finish =>
        Reaction(Voice(Idle, v.lastCommand, rest), Silent)
  }

  predicate ValidEvent(ev: Event) {
    ev.Fire? ==> ev.pick < |MockCommands|
  }

  /** One event. A press while the button is disabled does nothing. */
  function Step(v: Voice, ev: Event): (r: Reaction)
    requires ValidEvent(ev)
    ensures ev.Press? && v.state == Processing ==> r == Reaction(v, Silent)
    ensures ev.Press? && !ev.supported ==> r.next == v
    ensures ev.Press? && ev.supported && v.state == Listening ==> r.next.state == Idle
    ensures ev.Press? && ev.supported && v.state in {Idle, Speaking} ==> r.next.state == Listening
    ensures r.effect.Command? ==> ev.Fire? && ev.timer < |v.pending| && v.pending[ev.timer] == Execute(r.effect.text)
  {
    match ev
    case Press(supported) =>
      if ButtonDisabled(v.state) then Reaction(v, Silent) else ToggleListening(v, supported)
    case Fire(k, pick) => FireTimer(v, k, pick)
  }

  /** The invariant of every reachable state: the recorded command and the
      command of every pending execution timer are canned commands. */
  ghost predicate Inv(v: Voice) {
    && (v.lastCommand == "" || v.lastCommand in MockCommands)
    && forall t :: t in v.pending && t.Execute? ==> t.command in MockCommands
  }

  lemma InitialInv()
    ensures Inv(Initial)
  {
  }

  /** Every step keeps the invariant, and every command the component
      hands to the dashboard is one of the six canned commands. */
  lemma StepKeepsInv(v: Voice, ev: Event)
    requires ValidEvent(ev) && Inv(v)
    ensures Inv(Step(v, ev).next)
    ensures Step(v, ev).effect.Command? ==> Step(v, ev).effect.text in MockCommands
  {
    if ev.Fire? && ev.timer < |v.pending| {
      assert v.pending[ev.timer] in v.pending;
    }
  }

  /** A full session: a press, then the three timers in order. The second
      timer hands to the dashboard exactly the command the first recorded,
      the command stays visible until the session ends, and the machine
      ends idle with nothing pending. */
  lemma FullSession(pick: nat, p2: nat, p3: nat)
    requires pick < |MockCommands| && p2 < |MockCommands| && p3 < |MockCommands|
    ensures
      var v1 := Step(Initial, Press(true)).next;
      var r2 := Step(v1, Fire(0, pick));
      var r3 := Step(r2.next, Fire(0, p2));
      var r4 := Step(r3.next, Fire(0, p3));
      && Step(Initial, Press(true)).effect == Silent && r2.effect == Silent && r4.effect == Silent
      && v1.state == Listening
      && r2.next.state == Processing && r2.next.lastCommand == MockCommands[pick]
      && ShowLastCommand(r2.next)
      && r3.effect == Command(r2.next.lastCommand) && r3.next.state == Speaking
      && ShowLastCommand(r3.next)
      && r4.next == Voice(Idle, MockCommands[pick], [])
      && !ShowLastCommand(r4.next)
  {
  }

  /** There is no cancellation: a session pressed back to idle while
      listening still reaches processing, with a fresh command, when its
      timer expires. */
  lemma CancelledSessionStillAdvances(pick: nat)
    requires pick < |MockCommands|
    ensures
      var v1 := Step(Initial, Press(true)).next;
      var v2 := Step(v1, Press(true)).next;
      var v3 := Step(v2, Fire(0, pick)).next;
      && v2.state == Idle && v2.pending == [Recognize]
      && v3.state == Processing && v3.lastCommand == MockCommands[pick]
  {
  }

  // ---------------------------------------------------------------------
  // What the component shows

  datatype Icon = Mic | MicOff | Volume2

  /** The caption under the button. */
  function StateText(s: VoiceState): (t: string)
    ensures t in {"Listening...", "Processing...", "Executing command", "Tap to speak"}
    ensures t == "Tap to speak" <==> s == Idle
  {
    match s
    case Listening => "Listening..."
    case Processing => "Processing..."
    case Speaking => "Executing command"
    case Idle => "Tap to speak"
  }

  /** Distinct states have distinct captions, so the caption tells the
      state. */
  lemma StateTextInjective(s: VoiceState, s': VoiceState)
    ensures StateText(s) == StateText(s') <==> s == s'
  {
  }

  /** The button icon: a speaker while executing, a crossed-out microphone
      while processing, a microphone otherwise. */
  function StateIcon(s: VoiceState): (i: Icon)
    ensures i == Volume2 <==> s == Speaking
    ensures i == MicOff <==> s == Processing
    ensures i == Mic <==> s == Idle || s == Listening
  {
    if s == Speaking then Volume2
    else if s == Listening then Mic
    else if s == Idle then Mic
    else assert s.Processing?; MicOff
  }

  /** The recorded command is shown while it is non-empty and the component
      is not idle, that is while the caption is not "Tap to speak". */
  predicate ShowLastCommand(v: Voice): (b: bool)
    ensures b <==> v.lastCommand != "" && StateText(v.state) != "Tap to speak"
  {
    v.lastCommand != "" && v.state != Idle
  }

  /** The crossed-out microphone shows exactly while the button is
      disabled. */
  lemma IconShowsDisabled(s: VoiceState)
    ensures StateIcon(s) == MicOff <==> ButtonDisabled(s)
  {
  }

  /** Under the invariant, a command on display is one of the canned
      commands. */
  lemma ShownCommandIsCanned(v: Voice)
    requires Inv(v) && ShowLastCommand(v)
    ensures v.lastCommand in MockCommands
  {
  }

  /** Right after a recognition timer fires, the command it picked is the
      recorded command and it is shown. */
  lemma RecognizedCommandShown(v: Voice, k: nat, pick: nat)
    requires pick < |MockCommands| && k < |v.pending| && v.pending[k] == Recognize
    ensures ShowLastCommand(FireTimer(v, k, pick).next)
    ensures FireTimer(v, k, pick).next.lastCommand == MockCommands[pick]
  {
  }
}

=== FILE: wrappers.dfy ===
/** The optional-value datatype used for the record fields that a device may
    leave undefined (value, unit, room, battery) and for searches that may
    find nothing. */
module Wrappers {

  datatype Option<+T> = None | Some(value: T)
}
